=== FILE: README.md ===
# Kids coding club site: page logic in Dafny

This project models the small pure rules and state machines inside the pages of a
children's coding-club website (a React single-page app backed by a hosted database).
It covers:

- the learning-style quiz;
- the project-share form (tag list, submit checks, inserted record);
- the tutorial page: splitting the free content into steps, the step cursor, role
  resolution and the premium predicate, the difficulty stars, the editor's starter document;
- the Q&A and Community listings: approved-only, newest-first query with an optional
  limit, author-id de-duplication, the profile map, the author label, relative dates,
  previews, pluralisation, and the outcome of a like;
- the code editor's buffer, error line and preview-frame contents.

Database answers are inputs: a listing query is modelled as its declared filter, sort and
limit over a table passed in as a sequence, and a `profiles` or `user_roles` answer is a
sequence of rows. Whether the browser lets the editor write its preview frame is a
parameter (`CodeEditor.FrameAccess`). Timestamps are integer milliseconds, and
`toLocaleDateString` is an opaque function parameter.

Modules, one per concern:

| file | module | models |
|---|---|---|
| base.dfy | `Base` | `Option` (null/undefined), `Result` (rows or error object) |
| schema.dfy | `Schema` | user ids, the `app_role` enum, moderation status values, the database error object |
| jstext.dfy | `JsText` | the JavaScript whitespace class (`\s` and `trim`), `trim`, `repeat`, integer-to-decimal rendering |
| learning_style.dfy | `LearningStyle` | the quiz state machine and its result |
| share_project.dfy | `ShareProject` | tag list, submit validation, inserted record, submit feedback |
| tutorial_steps.dfy | `TutorialSteps` | the `split` on step headers and the blank-piece filter |
| tutorial_detail.dfy | `TutorialDetail` | role resolution, premium predicate, step cursor, shown text, stars, starter document |
| listings.dfy | `Listings` | the listing query, author ids, profile map, author label, one fetch |
| qa.dfy | `QA` | the Q&A query, relative dates, preview, answer noun |
| community.dfy | `Community` | the Community query and the like outcome |
| code_editor.dfy | `CodeEditor` | buffer, error line and frame under edit, run, reset and starter change |

Facts about the code that the model keeps, some of which a reader might not expect:

- `.single()` on `user_roles` yields no data unless exactly one row matches. A user with
  several role rows therefore keeps the role `free` (`TutorialDetail.TwoRoleRowsStayFree`).
- The tutorial page computes `isPremiumUser` but never reads it. It renders no
  `paid_content` and no upsell, so the model keeps only the predicate.
- The editor does not run its starter code on mount. The frame stays unwritten until the
  first Run or Reset (`CodeEditor.Mount`).
- `resetCode` writes the starter code into the frame outside any `try`. It does not clear
  the error line and does not call `onRun`.
- The error line shows what `runCode`'s `try` catches: a throw from the frame write, or a throw
  from `onRun` after the frame was written. Errors raised by the learner's script inside the
  frame never reach it.
- The 100/1000/20-character limits of the share form are `maxLength` attributes on the inputs.
  The submit handler does not check lengths.

## Model

| member | source | states |
|---|---|---|
| `LearningStyle.Answer` | src/pages/LearningStyle.tsx:106-118 | no selection changes nothing; otherwise the selection is recorded under the current index; before the last question the cursor advances by one and the selection clears; on the last question the cursor stays and the result is the top style of the new answers |
| `LearningStyle.Tally` | src/pages/LearningStyle.tsx:121-124 | the count `counts` holds for a style: how many recorded answers chose it |
| `LearningStyle.MaxTally` | src/pages/LearningStyle.tsx:126 | the maximum is at least every style's tally and is attained by some style |
| `LearningStyle.FirstWithTally` | src/pages/LearningStyle.tsx:127 | the first index in the entry order whose tally equals the maximum, no earlier entry having it |
| `LearningStyle.FindWithTally` | src/pages/LearningStyle.tsx:127 | `find` yields nothing exactly when no entry has the tally, else the first entry that has it |
| `LearningStyle.TopStyle` | src/pages/LearningStyle.tsx:120-129 | the result's tally is maximal, and every style earlier in the order visual, auditory, kinesthetic has a strictly smaller tally |
| `LearningStyle.NoAnswersGiveVisual` | src/pages/LearningStyle.tsx:121-128 | with no recorded answers the result is visual |
| `LearningStyle.Select` | src/pages/LearningStyle.tsx:230-242 | choosing an option sets the selection and nothing else |
| `LearningStyle.Previous` | src/pages/LearningStyle.tsx:261 | the cursor becomes max(0, cursor-1); answers, selection and result are kept |
| `LearningStyle.ResetQuiz` | src/pages/LearningStyle.tsx:131-136 | back to cursor 0, no answers, no result, empty selection |
| `LearningStyle.StepPreservesValid` | src/pages/LearningStyle.tsx:106-136 | every action keeps the cursor on a question and the answer keys question indices |
| `LearningStyle.ReachableValid` | src/pages/LearningStyle.tsx:101-136 | every state reached from a valid state by any actions is valid |
| `LearningStyle.TalliesPartitionAnswers` | src/pages/LearningStyle.tsx:121-124 | the three tallies add up to the number of recorded answers |
| `LearningStyle.BoundedSetSize` | src/pages/LearningStyle.tsx:10-56 | at most five distinct question indices can be keys |
| `LearningStyle.TalliesBounded` | src/pages/LearningStyle.tsx:109-124 | in a reachable state the tallies add up to at most 5 |
| `LearningStyle.ReanswerOverwrites` | src/pages/LearningStyle.tsx:109 | going back and answering again replaces the earlier answer for that question |
| `ShareProject.AddTag` | src/pages/ShareProject.tsx:44-49 | the trimmed input is appended and the input cleared exactly when it is non-blank and absent; otherwise the form is unchanged; the tag invariant is kept |
| `ShareProject.Without` | src/pages/ShareProject.tsx:52 | the removed tag is gone, every other tag stays, an absent tag changes nothing |
| `ShareProject.RemoveTag` | src/pages/ShareProject.tsx:51-53 | only the tag list changes |
| `ShareProject.RemoveCutsOut` | src/pages/ShareProject.tsx:51-53 | in a duplicate-free list, removal cuts the tag out at its position and keeps the others in order |
| `ShareProject.WithoutNoDuplicates` | src/pages/ShareProject.tsx:52 | removal keeps the list duplicate-free |
| `ShareProject.RemovePreservesWellFormed` | src/pages/ShareProject.tsx:44-53 | removal keeps tags distinct, trimmed and non-empty |
| `ShareProject.AddTagIdempotent` | src/pages/ShareProject.tsx:45-47 | adding the same text a second time leaves the tag list as after the first add |
| `ShareProject.TrimmedOrNull` | src/pages/ShareProject.tsx:82-83 | null exactly for blank text, else the non-empty trimmed text |
| `ShareProject.Submit` | src/pages/ShareProject.tsx:58-86 | the checks run in order (signed in, title and description non-blank, some URL non-empty untrimmed), the first failure wins with no record, and a record carries the user id, trimmed title and description, trimmed-or-null URLs, the tags and status pending |
| `ShareProject.BlankLinkAccepted` | src/pages/ShareProject.tsx:68-83 | a whitespace-only URL passes the link check and is stored as null |
| `ShareProject.EmptyFormRefused` | src/pages/ShareProject.tsx:17-22 | the initial form has well-formed tags, and submitting it untouched is refused for the missing fields |
| `ShareProject.InsertFeedback` | src/pages/ShareProject.tsx:88-93 | success exactly without an error; a failure shows the error message, or the fallback text when it is empty |
| `JsText.IsSpace` | src/pages/ShareProject.tsx:45 | the ECMA-262 WhiteSpace and LineTerminator code points, the class of both `trim` and `\s` |
| `JsText.SpaceClass` | src/pages/ShareProject.tsx:45 | line terminators, the blank, tab and no-break spaces are whitespace; letters and digits are not |
| `JsText.Trim` | src/pages/ShareProject.tsx:45 | the result is the infix between maximal whitespace runs at both ends, empty exactly for blank text |
| `JsText.TrimIdempotent` | src/pages/ShareProject.tsx:45 | trimming a trimmed string changes nothing |
| `JsText.RepeatChar` | src/pages/TutorialDetail.tsx:82 | n copies of the character |
| `JsText.NatToDecimal` | src/pages/QA.tsx:99 | non-empty decimal digits without a leading zero |
| `JsText.DecimalRoundTrip` | src/pages/QA.tsx:99 | parsing the rendered digits gives the number back |
| `JsText.IntToDecimal` | src/pages/QA.tsx:99 | a minus sign exactly for negatives, then digits that parse back to the magnitude |
| `TutorialSteps.LeadingDigits` | src/pages/TutorialDetail.tsx:55 | the maximal run of `\d` at the start |
| `TutorialSteps.StepHeader` | src/pages/TutorialDetail.tsx:55 | `Step`, a maximal `\s` run, a maximal `\d` run and a colon at the start of the text |
| `TutorialSteps.HeaderAt` | src/pages/TutorialDetail.tsx:55 | either alternative of the lookahead: `##`, a `\s` run and a step header, or a step header alone |
| `TutorialSteps.LineStart` | src/pages/TutorialDetail.tsx:55 | multiline `^`: the start of the text or just after LF, CR, U+2028 or U+2029 |
| `TutorialSteps.IsCut` | src/pages/TutorialDetail.tsx:55 | `split` cuts strictly inside the text at a line start where the lookahead matches, never at position 0 |
| `TutorialSteps.StepHeaderIntro` | src/pages/TutorialDetail.tsx:55 | `Step`, any non-empty whitespace, any non-empty digits and `:` form a header whatever follows |
| `TutorialSteps.HashedHeaderIntro` | src/pages/TutorialDetail.tsx:55 | the same after `##` and non-empty whitespace |
| `TutorialSteps.NoSpaceNoHeader` | src/pages/TutorialDetail.tsx:55 | `Step` followed directly by a non-space (as in `Step1:`) is no header |
| `TutorialSteps.PlainHeaderExample` | src/pages/TutorialDetail.tsx:55 | `Step 1: Plan` is a header |
| `TutorialSteps.CutAfterLineBreak` | src/pages/TutorialDetail.tsx:55 | a header right after a line terminator cuts the content there |
| `TutorialSteps.NoCutMidLine` | src/pages/TutorialDetail.tsx:55 | a header not preceded by a line terminator does not cut |
| `TutorialSteps.SplitFrom` | src/pages/TutorialDetail.tsx:55 | the remaining pieces concatenate to the rest of the text, are non-empty, and start exactly at the piece start and at later cut positions |
| `TutorialSteps.Split` | src/pages/TutorialDetail.tsx:55 | the pieces concatenate back to the content, and a piece starts exactly at 0 and at every inner line start followed by `## Step N:` or `Step N:` |
| `TutorialSteps.KeepNonBlank` | src/pages/TutorialDetail.tsx:56 | blank pieces are dropped, every non-blank piece is kept as often as it occurs, in the original order |
| `TutorialSteps.Steps` | src/pages/TutorialDetail.tsx:55-57 | the steps are the non-blank pieces of the split, each as often as it occurs there, in order |
| `TutorialSteps.NoHeaderOneStep` | src/pages/TutorialDetail.tsx:55-56 | content without a step header is one step, or none when blank |
| `TutorialDetail.IsPremium` | src/pages/TutorialDetail.tsx:85 | the premium flag: the role is premium or admin |
| `TutorialDetail.PremiumRoles` | src/pages/TutorialDetail.tsx:85 | premium and admin are premium; free, moderator and parent are not |
| `TutorialDetail.RolesOf` | src/pages/TutorialDetail.tsx:69-72 | exactly the role rows of the user, each as often as it occurs in the table (the rows have their own id, so equal rows can repeat) |
| `TutorialDetail.ResolveRole` | src/pages/TutorialDetail.tsx:66-79 | the role changes only for a signed-in user with exactly one role row, to that row's role |
| `TutorialDetail.TwoRoleRowsStayFree` | src/pages/TutorialDetail.tsx:69-77 | a user with two role rows keeps the default free role |
| `TutorialDetail.DifficultyStars` | src/pages/TutorialDetail.tsx:81-83 | exactly `difficulty` star glyphs |
| `TutorialDetail.EditorStarter` | src/pages/TutorialDetail.tsx:258 | the starter code when non-empty, else the fixed welcome document; never empty |
| `TutorialDetail.NextStep` | src/pages/TutorialDetail.tsx:87-91 | advances only below the last step; keeps the cursor in range |
| `TutorialDetail.PreviousStep` | src/pages/TutorialDetail.tsx:93-97 | goes back only above 0; keeps the cursor in range |
| `TutorialDetail.Load` | src/pages/TutorialDetail.tsx:33-57 | a loaded tutorial has cursor 0 over exactly the non-blank pieces of its split content |
| `TutorialDetail.NonBlankContentLoadsAStep` | src/pages/TutorialDetail.tsx:55-57 | content with a non-space character yields at least one step, so the viewer never starts on the fallback |
| `TutorialDetail.DisplayedText` | src/pages/TutorialDetail.tsx:229 | the current step when it exists and is non-empty, else the whole free content |
| `TutorialDetail.NavigationStaysInRange` | src/pages/TutorialDetail.tsx:87-97 | after any presses the cursor is within 0..max(0, steps-1) and the steps are unchanged |
| `TutorialDetail.NavigationShowsStep` | src/pages/TutorialDetail.tsx:229 | with at least one non-blank step, navigation never falls back to the whole content |
| `Listings.ApprovedOnly` | src/pages/Community.tsx:60 | only approved rows, each approved row kept as often as it occurs |
| `Listings.InsertByDate` | src/pages/Community.tsx:61 | inserting into a newest-first list keeps it newest-first and adds exactly the row |
| `Listings.SortNewestFirst` | src/pages/Community.tsx:61 | a newest-first rearrangement of the rows |
| `Listings.Limit` | src/pages/QA.tsx:60 | the first min(limit, length) rows, or all rows without a limit |
| `Listings.PrefixIsNewest` | src/pages/QA.tsx:59-60 | no row after a prefix of a newest-first list is newer than a row in it |
| `Listings.ListingQuery` | src/pages/QA.tsx:55-60 | approved rows only, newest first, drawn from the approved rows; without a limit all of them, with a limit min(limit, count) of them and none left out newer than one kept |
| `Listings.TakeNewest` | src/pages/QA.tsx:58-60 | a prefix of the sorted approved rows is approved, ordered, and holds the newest ones |
| `Listings.PrefixDrawnFrom` | src/pages/Community.tsx:60 | a prefix of a rearrangement of approved rows is approved and drawn from them |
| `Listings.UserIds` | src/pages/Community.tsx:68 | the `user_id` of each row, in order |
| `Listings.DedupInto` | src/pages/Community.tsx:68 | duplicate-free, holding exactly the earlier and the new ids, earlier ids first |
| `Listings.AuthorIds` | src/pages/QA.tsx:66 | duplicate-free, contains every listed row's user id and nothing else |
| `Listings.ProfilesIn` | src/pages/Community.tsx:69-72 | exactly the profile rows whose id is requested |
| `Listings.LastIndexOf` | src/pages/Community.tsx:76-79 | the last position holding the id, or -1 when none does |
| `Listings.ProfileMap` | src/pages/Community.tsx:74-81 | the keys are exactly the returned ids, each mapped to the display name and username of the last row with that id |
| `Listings.ProfileMapKeys` | src/pages/QA.tsx:72-80 | every returned row's id is a key, and every key is some row's id |
| `Listings.ReturnedProfilesKept` | src/pages/Community.tsx:67-82 | a returned profile row of a listed author ends up in the profile map |
| `Listings.ProfileValuesFromTable` | src/pages/Community.tsx:74-81 | every entry of the profile map holds the display name and username of a returned row with that id |
| `Listings.AuthorLabel` | src/pages/Community.tsx:167 | display name if non-empty, else username if non-empty, else "Anonymous"; never empty |
| `Listings.Fetch` | src/pages/Community.tsx:55-91 | a failed query keeps what was shown; a successful one shows the query result; for a non-empty result with a profile answer, the keys are exactly the listed authors with a returned profile row, each mapped to the display name and username of such a row; otherwise the profiles are kept |
| `Listings.OnlyApprovedShown` | src/pages/Community.tsx:55-64 | after any sequence of fetches, every shown row is approved |
| `Listings.InitialPageShowsApprovedOnly` | src/pages/Community.tsx:51-64 | from the first render, any sequence of fetches shows approved rows only |
| `QA.ListQuestions` | src/pages/QA.tsx:55-60 | at most 20 approved questions, newest first, drawn from the table, min(20, approved count) of them, and no approved question left out is newer than one listed |
| `QA.ElapsedDays` | src/pages/QA.tsx:94-95 | the floor of the elapsed time in days, also for negative differences |
| `QA.FormatDate` | src/pages/QA.tsx:91-101 | today iff less than one day elapsed (and not negative), yesterday iff one to two days, n days ago for negative or two to seven days, else the locale date |
| `QA.DateText` | src/pages/QA.tsx:97-100 | "today", "yesterday", "<n> days ago", or the opaque locale date |
| `QA.FutureTimestampReadsNegative` | src/pages/QA.tsx:99 | a timestamp two and a half days ahead reads "-3 days ago" |
| `QA.Preview` | src/pages/QA.tsx:170 | the first min(150, length) characters followed by "..." |
| `QA.ShortPreviewKeepsContent` | src/pages/QA.tsx:170 | short content is shown whole and still gets "..." |
| `QA.AnswerNoun` | src/pages/QA.tsx:189 | "answer" iff the count is 1, else "answers" |
| `Community.ListProjects` | src/pages/Community.tsx:55-61 | approved projects only, newest first, every approved project |
| `Community.ListedIffApproved` | src/pages/Community.tsx:57-61 | a project is listed iff it is in the table and approved |
| `Community.LikeInsert` | src/pages/Community.tsx:94-103 | no insert without a user; otherwise the project and user id |
| `Community.Like` | src/pages/Community.tsx:93-115 | sign-in message iff no user; liked (and re-fetch) iff the insert succeeded; already-liked iff error code 23505; generic failure for any other error |
| `Community.Refetches` | src/pages/Community.tsx:107 | only a stored like re-fetches the listing |
| `Community.RefetchOnlyAfterStoredLike` | src/pages/Community.tsx:94-107 | the listing is fetched again exactly when a signed-in user's insert succeeded |
| `Community.LikeMessage` | src/pages/Community.tsx:95-112 | every outcome has a non-empty message |
| `CodeEditor.Mount` | src/components/CodeEditor.tsx:10-12 | the buffer starts as the starter code, with no error and an unwritten frame |
| `CodeEditor.StarterChanged` | src/components/CodeEditor.tsx:14-16 | a new starter replaces the buffer and touches neither frame nor error line |
| `CodeEditor.Edit` | src/components/CodeEditor.tsx:63 | editing changes only the buffer |
| `CodeEditor.ErrorText` | src/components/CodeEditor.tsx:30 | "Error: " followed by the message, or by "Unknown error" for a non-Error value |
| `CodeEditor.Run` | src/components/CodeEditor.tsx:18-32 | a writable frame gets the buffer; a throw from the frame write sets its error text, leaves the frame and skips `onRun`; otherwise `onRun`, when given, receives the buffer, and the error line clears unless `onRun` throws, in which case it shows that error; the buffer never changes |
| `CodeEditor.Reset` | src/components/CodeEditor.tsx:34-42 | the buffer becomes the starter, a writable frame gets the starter, the error line is unchanged |
| `CodeEditor.RunIdempotent` | src/components/CodeEditor.tsx:22-26 | running twice leaves the same frame, and the same state, as running once |
| `CodeEditor.ResetThenRunMatchesFreshRun` | src/components/CodeEditor.tsx:34-42 | running after a reset shows what running the starter on a fresh editor shows |
| `CodeEditor.RecoversAfterFailure` | src/components/CodeEditor.tsx:27-30 | after a failed run, an edit and a run whose `onRun` does not throw clear the error and show the new buffer |
| `CodeEditor.CallbackErrorAfterWrite` | src/components/CodeEditor.tsx:22-30 | a throwing `onRun` was called with the buffer, and it leaves the buffer in the frame under its error line |
| `CodeEditor.FrameOnlyFromWrites` | src/components/CodeEditor.tsx:18-42 | the frame only ever holds a buffer that was run or a starter that was reset to |
| `CodeEditor.FrameFromGeneral` | src/components/CodeEditor.tsx:18-42 | the same, starting from any frame already drawn from a known set |

## Left out

- Network and session plumbing: every database call, the auth session and its
  subscription, navigation and toasts. Query answers are inputs; toasts appear only as
  outcome values or message strings.
- Asynchronous ordering: races between the tutorial fetch and the role lookup,
  `loading` flags except in `Listings.Page`, and updates after unmount.
- The step cursor is not reset when another tutorial is loaded into the same page.
  `TutorialDetail.Load` models a first load only.
- Database ties: the database leaves the order of rows with equal `created_at` open.
  `Listings.SortNewestFirst` fixes one order, and the listing contracts hold for any.
- Order of the returned profile rows: `Listings.ProfilesIn` keeps table order, because
  the `.in(...)` query does not fix one.
- Strings are sequences of Unicode characters, not UTF-16 code units. So the 150-character
  preview counts characters, and surrogate pairs are not modelled.
- `getDifficultyStars` takes a natural number. `repeat` throws for negative counts and
  truncates fractions; neither case is modelled.
- Dates are integer milliseconds. Parsing `created_at` and `toLocaleDateString` are outside
  the model; the latter is an opaque function parameter.
- The quiz progress percentage is floating point and is not modelled. The question and
  style texts are static content.
- Quiz answers are one of the three styles, because the radio options offer nothing else.
  The tally of an unknown answer string is not modelled.
- Preview frame: isolation and whether `contentWindow.document` is reachable under
  `sandbox="allow-scripts"` are browser behaviour, given by the `FrameAccess` parameter.
  A write that throws after partly writing is modelled as leaving the frame unchanged.
- Reset with a throwing frame: the exception escapes the handler. The model assumes the
  queued buffer update still applies.
- Forum thread counts, the tutorials list (a fetch plus the same star helper), static
  pages, the route table and the generated type declarations are not modelled. Only the
  role enum is taken from the type declarations.
- `QA.AnswerNoun`: the count is a natural number, but `answers_count` may be null. A null
  count renders "answers", like every count other than 1, so the label loses nothing; the
  null case itself is not modelled.
- `ShareProject.Submit`: models `handleSubmit` alone. The browser's constraint validation
  runs before the submit event and is not modelled: `required` on title and description
  (ShareProject.tsx:127, 141) and `type="url"` on both links (ShareProject.tsx:156, 172).
  The page also renders nothing without a user (ShareProject.tsx:100-102).
  `ShareProject.BlankLinkAccepted` and `ShareProject.EmptyFormRefused` therefore describe the
  handler, not paths a user of the page can reach.
- The form's `maxLength` limits are enforced by the browser on input. The submit handler
  does not check them, so neither does `ShareProject.Submit`.

=== FILE: base.dfy ===
/** Option and Result datatypes, and small helpers, shared by every module of the model. */
module Base {

  /** A JavaScript value that may be `null` or `undefined`. */
  datatype Option<+T> = None | Some(value: T) {
    function GetOr(default: T): T {
      match this
      case Some(v) => v
      case None => default
    }
  }

  /** The outcome of a backend call: the rows it returned, or the error object. */
  datatype Result<+T, +E> = Ok(value: T) | Err(error: E)

  /** Smaller of two naturals (used for `substring` and `limit` clamping). */
  function Min(a: nat, b: nat): nat {
    if a <= b then a else b
  }

  /** True iff no element occurs twice. */
  predicate NoDuplicates<T(==)>(s: seq<T>) {
    forall i, j :: 0 <= i < j < |s| ==> s[i] != s[j]
  }
}

=== FILE: code_editor.dfy ===
/**
  The code editor: the text buffer, the error line under it, and the contents of the preview
  frame, under editing, running, resetting and a change of the starter code. Whether the
  preview frame can be written is up to the browser, so each run and reset takes the
  browser's answer as a parameter.
*/
module CodeEditor {
  import opened Base

  /**
    `starter` is the `starterCode` prop, `code` the buffer, `output` the error line (hidden
    when empty) and `frame` the document last written into the preview frame, `None` while
    nothing has been written.
  */
  datatype Editor = Editor(starter: string, code: string, output: string, frame: Option<string>)

  /** A value thrown while writing the frame: an `Error` with its message, or anything else. */
  datatype Thrown = ErrorObject(message: string) | OtherValue

  /** What the browser does when the editor writes to the preview frame. */
  datatype FrameAccess =
    | NoFrame            // no element or no `contentWindow`: nothing is written
    | Writable           // `document.open/write/close` replace the frame's document
    | Throws(thrown: Thrown)

  /** First render: the buffer holds the starter code; nothing is run automatically. */
  function Mount(starter: string): (e: Editor)
    ensures e.code == starter && e.starter == starter
    ensures e.output == [] && e.frame.None?
  {
    Editor(starter, starter, [], None)
  }

  /** The effect on `[starterCode]`: a new starter replaces the buffer and nothing else. */
  function StarterChanged(e: Editor, starter: string): (r: Editor)
    ensures r.starter == starter
    ensures starter != e.starter ==> r.code == starter
    ensures starter == e.starter ==> r.code == e.code
    ensures r.output == e.output && r.frame == e.frame
  {
    if starter != e.starter then e.(starter := starter, code := starter) else e
  }

  /** The textarea's `onChange`. */
  function Edit(e: Editor, text: string): (r: Editor)
    ensures r.code == text
    ensures r.starter == e.starter && r.output == e.output && r.frame == e.frame
  {
    e.(code := text)
  }

  const ErrorPrefix: string := "Error: "

  /** The error line for a thrown value. */
  function ErrorText(t: Thrown): (r: string)
    ensures |r| >= |ErrorPrefix| && r[..|ErrorPrefix|] == ErrorPrefix
    ensures t.ErrorObject? ==> r == ErrorPrefix + t.message
    ensures t.OtherValue? ==> r == ErrorPrefix + "Unknown error"
  {
    match t
    case ErrorObject(m) => ErrorPrefix + m
    case OtherValue => ErrorPrefix + "Unknown error"
  }

  /**
    The `onRun` prop: absent (the tutorial page passes none), or a callback that returns
    normally or throws. It is called inside the same `try` as the frame write.
  */
  datatype Callback = NoCallback | Returns | CallbackThrows(thrown: Thrown)

  /** The editor after a run, and the text handed to the `onRun` callback, if it was called. */
  datatype RunResult = RunResult(editor: Editor, ranWith: Option<string>)

  /**
    `runCode`. A throw while writing the frame skips the rest of the `try`; a throw from
    `onRun` comes after the frame was written and the error line cleared, so its text wins.
  */
  function Run(e: Editor, access: FrameAccess, onRun: Callback): (r: RunResult)
    ensures r.editor.code == e.code && r.editor.starter == e.starter
    ensures access.Writable? ==> r.editor.frame == Some(e.code)
    ensures !access.Writable? ==> r.editor.frame == e.frame
    ensures r.ranWith.Some? <==> !access.Throws? && !onRun.NoCallback?
    ensures r.ranWith.Some? ==> r.ranWith.value == e.code
    ensures r.editor.output == [] <==> !access.Throws? && !onRun.CallbackThrows?
    ensures access.Throws? ==> r.editor.output == ErrorText(access.thrown)
    ensures !access.Throws? && onRun.CallbackThrows? ==> r.editor.output == ErrorText(onRun.thrown)
  {
    match access
    case Throws(t) => RunResult(e.(output := ErrorText(t)), None)
    case _ =>
      var written := if access.Writable? then e.(frame := Some(e.code)) else e;
      var ranWith := if onRun.NoCallback? then None else Some(e.code);
      var output := if onRun.CallbackThrows? then ErrorText(onRun.thrown) else [];
      RunResult(written.(output := output), ranWith)
  }

  /**
    `resetCode`: the buffer returns to the starter code and the frame is rewritten with it.
    The write is not guarded here, so a throwing frame leaves the frame as it was and the
    exception escapes the handler without touching the error line.
  */
  function Reset(e: Editor, access: FrameAccess): (r: Editor)
    ensures r.code == e.starter && r.starter == e.starter
    ensures access.Writable? ==> r.frame == Some(e.starter)
    ensures !access.Writable? ==> r.frame == e.frame
    ensures r.output == e.output
  {
    var r := e.(code := e.starter);
    if access.Writable? then r.(frame := Some(e.starter)) else r
  }

  /** Running twice on an unchanged buffer leaves the frame and the editor as one run does. */
  lemma RunIdempotent(e: Editor, first: FrameAccess, firstCallback: Callback, onRun: Callback)
    ensures Run(Run(e, first, firstCallback).editor, Writable, onRun).editor.frame == Run(e, Writable, onRun).editor.frame
    ensures Run(Run(e, Writable, onRun).editor, Writable, onRun) == Run(e, Writable, onRun)
  {
  }

  /** A run after a reset shows what running the starter code on a fresh editor shows. */
  lemma ResetThenRunMatchesFreshRun(e: Editor, access: FrameAccess, onRun: Callback)
    ensures Run(Reset(e, access), Writable, onRun).editor.frame == Run(Mount(e.starter), Writable, onRun).editor.frame
    ensures Run(Reset(e, access), Writable, Returns).ranWith == Some(e.starter)
  {
  }

  /** A failed run does not wedge the editor: the next run that throws nowhere clears the error line. */
  lemma RecoversAfterFailure(e: Editor, t: Thrown, failed: Callback, text: string, onRun: Callback)
    requires !onRun.CallbackThrows?
    ensures Run(Edit(Run(e, Throws(t), failed).editor, text), Writable, onRun).editor.output == []
    ensures Run(Edit(Run(e, Throws(t), failed).editor, text), Writable, onRun).editor.frame == Some(text)
  {
  }

  /** A throwing `onRun` still leaves the learner's document in the frame, under an error line. */
  lemma CallbackErrorAfterWrite(e: Editor, t: Thrown)
    ensures Run(e, Writable, CallbackThrows(t)).editor.frame == Some(e.code)
    ensures Run(e, Writable, CallbackThrows(t)).ranWith == Some(e.code)
    ensures Run(e, Writable, CallbackThrows(t)).editor.output == ErrorText(t)
  {
  }

  /** A user or parent action on the editor. */
  datatype Event =
    | Typed(text: string)
    | Ran(access: FrameAccess, onRun: Callback)
    | ResetPressed(access: FrameAccess)
    | NewStarter(starter: string)

  function Apply(e: Editor, ev: Event): Editor {
    match ev
    case Typed(text) => Edit(e, text)
    case Ran(access, onRun) => Run(e, access, onRun).editor
    case ResetPressed(access) => Reset(e, access)
    case NewStarter(s) => StarterChanged(e, s)
  }

  function ApplyAll(e: Editor, events: seq<Event>): Editor
    decreases |events|
  {
    if events == [] then e else ApplyAll(Apply(e, events[0]), events[1..])
  }

  /** The frame only ever holds a document the editor wrote: a buffer that was run, or a starter. */
  predicate FrameFrom(e: Editor, written: set<string>) {
    e.frame.None? || e.frame.value in written
  }

  /** The document one event writes into the frame, if any. */
  function WrittenBy(e: Editor, ev: Event): set<string> {
    match ev
    case Ran(Writable, _) => {e.code}
    case ResetPressed(Writable) => {e.starter}
    case _ => {}
  }

  /** What the event stream can have written into the frame. */
  function Written(e: Editor, events: seq<Event>): set<string>
    decreases |events|
  {
    if events == [] then {}
    else WrittenBy(e, events[0]) + Written(Apply(e, events[0]), events[1..])
  }

  /** Nothing but a run buffer or a starter reaches the frame, whatever the browser answers. */
  lemma FrameOnlyFromWrites(e: Editor, events: seq<Event>)
    requires e.frame.None?
    ensures FrameFrom(ApplyAll(e, events), Written(e, events))
  {
    FrameFromGeneral(e, events, {});
  }

  lemma {:induction false} FrameFromGeneral(e: Editor, events: seq<Event>, before: set<string>)
    requires FrameFrom(e, before)
    ensures FrameFrom(ApplyAll(e, events), before + Written(e, events))
    decreases |events|
  {
    if events != [] {
      var next := Apply(e, events[0]);
      var here := WrittenBy(e, events[0]);
      assert FrameFrom(next, before + here);
      FrameFromGeneral(next, events[1..], before + here);
      assert before + here + Written(next, events[1..]) == before + Written(e, events);
    }
  }
}

=== FILE: community.dfy ===
/** The Community projects page: its listing query and the outcome of a like. */
module Community {
  import opened Base
  import opened Schema
  import Listings

  /** The project columns the listing shows besides the shared ones. */
  datatype ProjectBody = ProjectBody(
    title: string,
    description: string,
    projectUrl: Option<string>,
    youtubeUrl: Option<string>,
    tags: seq<string>,
    likesCount: nat)

  type Project = Listings.Row<ProjectBody>

  /** The Community listing query: every approved project, newest first, no limit. */
  function ListProjects(table: seq<Project>): (r: seq<Project>)
    ensures forall k :: 0 <= k < |r| ==> Listings.IsApproved(r[k])
    ensures Listings.NewestFirst(r)
    ensures multiset(r) == multiset(Listings.ApprovedOnly(table))
  {
    Listings.ListingQuery(table, None)
  }

  /** A pending or rejected project is never listed, and an approved one always is. */
  lemma ListedIffApproved(table: seq<Project>, p: Project)
    ensures p in ListProjects(table) <==> p in table && Listings.IsApproved(p)
  {
  }

  /** The Postgres code for a unique-constraint violation. */
  const UniqueViolation: string := "23505"

  /** What a press of the like button leads to. */
  datatype LikeOutcome =
    | SignInRequired   // toast "Please sign in to like projects" and go to the sign-in page
    | Liked            // toast "Project liked!" and fetch the listing again
    | AlreadyLiked     // toast "You already liked this project"
    | LikeFailed       // toast "Failed to like project"

  /** The row a like inserts into `project_likes`. */
  datatype LikeRow = LikeRow(projectId: string, userId: UserId)

  /** The insert `handleLike` issues, if any. */
  function LikeInsert(user: Option<UserId>, projectId: string): (r: Option<LikeRow>)
    ensures r.None? <==> user.None?
    ensures r.Some? ==> r.value.userId == user.value && r.value.projectId == projectId
  {
    match user
    case None => None
    case Some(id) => Some(LikeRow(projectId, id))
  }

  /** `handleLike`: `insertError` is the error the insert returned, if it was issued and failed. */
  function Like(user: Option<UserId>, insertError: Option<DbError>): (r: LikeOutcome)
    ensures user.None? <==> r == SignInRequired
    ensures r == Liked <==> user.Some? && insertError.None?
    ensures r == AlreadyLiked <==> user.Some? && insertError.Some? && insertError.value.code == UniqueViolation
    ensures r == LikeFailed <==> user.Some? && insertError.Some? && insertError.value.code != UniqueViolation
  {
    if user.None? then SignInRequired
    else match insertError
      case None => Liked
      case Some(e) => if e.code == UniqueViolation then AlreadyLiked else LikeFailed
  }

  /** The toast text of each outcome. */
  function LikeMessage(o: LikeOutcome): (r: string)
    ensures r != []
  {
    match o
    case SignInRequired => "Please sign in to like projects"
    case Liked => "Project liked!"
    case AlreadyLiked => "You already liked this project"
    case LikeFailed => "Failed to like project"
  }

  /** Only a successful like re-fetches the listing. */
  predicate Refetches(o: LikeOutcome) {
    o == Liked
  }

  /** The listing is fetched again exactly when a signed-in user's like was stored. */
  lemma RefetchOnlyAfterStoredLike(user: Option<UserId>, insertError: Option<DbError>)
    ensures Refetches(Like(user, insertError)) <==> user.Some? && insertError.None?
  {
  }
}

=== FILE: jstext.dfy ===
/**
  The few JavaScript string primitives the pages rely on: the whitespace class shared
  by the regular-expression escape `\s` and by `String.prototype.trim`, `trim` itself,
  `repeat`, and the decimal rendering of an integer inside a template literal.
  Strings are sequences of characters; UTF-16 surrogate pairs are not modelled.
*/
module JsText {

  /** WhiteSpace or LineTerminator in the sense of ECMA-262 (section 12.2 and 12.3). */
  predicate IsSpace(c: char) {
    var n := c as int;
    9 <= n <= 13 || n == 0x20 || n == 0xA0 || n == 0x1680 || 0x2000 <= n <= 0x200A
    || n == 0x2028 || n == 0x2029 || n == 0x202F || n == 0x205F || n == 0x3000 || n == 0xFEFF
  }

  /** LineTerminator: the characters after which `^` matches in a multiline regular expression. */
  predicate IsLineTerminator(c: char) {
    c == '\n' || c == '\r' || c == '\U{2028}' || c == '\U{2029}'
  }

  /** `\s` and `trim` cover the line terminators, the ASCII blank and the no-break spaces, but no letter or digit. */
  lemma SpaceClass(c: char)
    ensures IsLineTerminator(c) ==> IsSpace(c)
    ensures c == ' ' || c == '\t' || c == '\U{00A0}' || c == '\U{3000}' || c == '\U{FEFF}' ==> IsSpace(c)
    ensures ('0' <= c <= '9' || 'a' <= c <= 'z' || 'A' <= c <= 'Z') ==> !IsSpace(c)
  {
  }

  /** The `\d` class. */
  predicate IsDigit(c: char) {
    '0' <= c <= '9'
  }

  /** True iff every character is whitespace (so `trim()` yields the empty string). */
  predicate IsBlank(s: string) {
    forall i :: 0 <= i < |s| ==> IsSpace(s[i])
  }

  /** Number of leading whitespace characters. */
  function LeadingSpaces(s: string): (n: nat)
    ensures n <= |s|
    ensures forall i :: 0 <= i < n ==> IsSpace(s[i])
    ensures n < |s| ==> !IsSpace(s[n])
  {
    if |s| > 0 && IsSpace(s[0]) then 1 + LeadingSpaces(s[1..]) else 0
  }

  /** Number of trailing whitespace characters. */
  function TrailingSpaces(s: string): (n: nat)
    ensures n <= |s|
    ensures forall i :: |s| - n <= i < |s| ==> IsSpace(s[i])
    ensures n < |s| ==> !IsSpace(s[|s| - n - 1])
  {
    if |s| > 0 && IsSpace(s[|s| - 1]) then 1 + TrailingSpaces(s[..|s| - 1]) else 0
  }

  /** `String.prototype.trim`: the infix left after removing whitespace at both ends. */
  function Trim(s: string): (r: string)
    ensures r == [] || (!IsSpace(r[0]) && !IsSpace(r[|r| - 1]))
    ensures LeadingSpaces(s) + |r| <= |s|
    ensures r == s[LeadingSpaces(s)..LeadingSpaces(s) + |r|]
    ensures forall i :: 0 <= i < LeadingSpaces(s) ==> IsSpace(s[i])
    ensures forall i :: LeadingSpaces(s) + |r| <= i < |s| ==> IsSpace(s[i])
    ensures r == [] <==> IsBlank(s)
  {
    var t := s[LeadingSpaces(s)..];
    t[..|t| - TrailingSpaces(t)]
  }

  /** Trimming twice is trimming once. */
  lemma TrimIdempotent(s: string)
    ensures Trim(Trim(s)) == Trim(s)
  {
  }

  /** `c.repeat(n)` for a one-character string `c`. */
  function RepeatChar(c: char, n: nat): (r: string)
    ensures |r| == n
    ensures forall i :: 0 <= i < |r| ==> r[i] == c
  {
    if n == 0 then [] else [c] + RepeatChar(c, n - 1)
  }

  function DigitChar(d: nat): (c: char)
    requires d < 10
    ensures IsDigit(c)
  {
    ['0', '1', '2', '3', '4', '5', '6', '7', '8', '9'][d]
  }

  function DigitValue(c: char): (d: nat)
    requires IsDigit(c)
    ensures d < 10
    ensures DigitChar(d) == c
  {
    (c as int - '0' as int) as nat
  }

  /** Decimal digits of a natural number, most significant first, without leading zeros. */
  function NatToDecimal(n: nat): (r: string)
    ensures |r| > 0
    ensures forall i :: 0 <= i < |r| ==> IsDigit(r[i])
    ensures |r| > 1 ==> r[0] != '0'
    decreases n
  {
    if n < 10 then [DigitChar(n)] else NatToDecimal(n / 10) + [DigitChar(n % 10)]
  }

  /** The value of a string of decimal digits. */
  function ParseDecimal(s: string): nat
    requires forall i :: 0 <= i < |s| ==> IsDigit(s[i])
  {
    if s == [] then 0 else 10 * ParseDecimal(s[..|s| - 1]) + DigitValue(s[|s| - 1])
  }

  /** Rendering a natural number in decimal loses nothing. */
  lemma {:induction false} DecimalRoundTrip(n: nat)
    ensures ParseDecimal(NatToDecimal(n)) == n
    decreases n
  {
    var r := NatToDecimal(n);
    if n < 10 {
      assert r[..0] == [];
    } else {
      DecimalRoundTrip(n / 10);
      assert r[..|r| - 1] == NatToDecimal(n / 10);
    }
  }

  /** An integer in a template literal: an optional minus sign, then its magnitude in decimal. */
  function IntToDecimal(i: int): (r: string)
    ensures |r| > 0
    ensures i < 0 <==> r[0] == '-'
    ensures forall k :: 0 < k < |r| ==> IsDigit(r[k])
    ensures i >= 0 ==> IsDigit(r[0])
    ensures i < 0 ==> ParseDecimal(r[1..]) == -i
    ensures i >= 0 ==> ParseDecimal(r) == i
  {
    if i < 0 then
      DecimalRoundTrip(-i);
      assert ("-" + NatToDecimal(-i))[1..] == NatToDecimal(-i);
      "-" + NatToDecimal(-i)
    else
      DecimalRoundTrip(i);
      NatToDecimal(i)
  }
}

=== FILE: learning_style.dfy ===
/**
  The five-question learning-style quiz: a state machine over the current question,
  the answers recorded so far (keyed by question index), the radio selection and the result.
*/
module LearningStyle {
  import opened Base

  datatype Style = Visual | Auditory | Kinesthetic

  /** Number of questions in the quiz. */
  const QuestionCount: nat := 5

  /** Key order of the tally object, which is the tie-break order of the result. */
  const StyleOrder: seq<Style> := [Visual, Auditory, Kinesthetic]

  /**
    `current` is the question on screen, `answers` maps a question index to the style
    chosen for it, `selected` is the radio selection (`None` for the empty string) and
    `result` is the computed style once the last question is answered.
  */
  datatype Quiz = Quiz(current: nat, answers: map<nat, Style>, result: Option<Style>, selected: Option<Style>)

  /** The state on first display, and after "Take Quiz Again". */
  const Initial: Quiz := Quiz(0, map[], None, None)

  /** Reachable states: the cursor is on a question and answers are keyed by question indices. */
  predicate Valid(q: Quiz) {
    && q.current < QuestionCount
    && forall k :: k in q.answers ==> k < QuestionCount
  }

  /** The question indices answered with `s`. */
  function AnsweredWith(answers: map<nat, Style>, s: Style): set<nat> {
    set k | k in answers && answers[k] == s
  }

  /** How many recorded answers are `s`. */
  function Tally(answers: map<nat, Style>, s: Style): nat {
    |AnsweredWith(answers, s)|
  }

  function Max(a: nat, b: nat): nat {
    if a < b then b else a
  }

  /** The largest tally. */
  function MaxTally(answers: map<nat, Style>): (m: nat)
    ensures forall s :: Tally(answers, s) <= m
    ensures exists s :: Tally(answers, s) == m
  {
    var m := Max(Tally(answers, Visual), Max(Tally(answers, Auditory), Tally(answers, Kinesthetic)));
    assert Tally(answers, Visual) == m || Tally(answers, Auditory) == m || Tally(answers, Kinesthetic) == m;
    m
  }

  /** Index of the first style in `order` whose tally is `m`, or `|order|` when there is none. */
  function FirstWithTally(order: seq<Style>, answers: map<nat, Style>, m: nat): (i: nat)
    ensures i <= |order|
    ensures forall j :: 0 <= j < i ==> Tally(answers, order[j]) != m
    ensures i < |order| ==> Tally(answers, order[i]) == m
  {
    if order == [] then 0
    else if Tally(answers, order[0]) == m then 0
    else 1 + FirstWithTally(order[1..], answers, m)
  }

  /** `Object.entries(counts).find(([_, count]) => count === m)?.[0]`. */
  function FindWithTally(order: seq<Style>, answers: map<nat, Style>, m: nat): (r: Option<Style>)
    ensures r.None? <==> forall j :: 0 <= j < |order| ==> Tally(answers, order[j]) != m
    ensures r.Some? ==> r.value == order[FirstWithTally(order, answers, m)]
  {
    var i := FirstWithTally(order, answers, m);
    if i < |order| then Some(order[i]) else None
  }

  /** Position of a style in the tie-break order. */
  function Rank(s: Style): nat {
    match s
    case Visual => 0
    case Auditory => 1
    case Kinesthetic => 2
  }

  /** `calculateResult`: the style with the largest tally, earliest in the tie-break order. */
  function TopStyle(answers: map<nat, Style>): (r: Style)
    ensures forall s :: Tally(answers, s) <= Tally(answers, r)
    ensures forall s :: Rank(s) < Rank(r) ==> Tally(answers, s) < Tally(answers, r)
  {
    var m := MaxTally(answers);
    var found := FindWithTally(StyleOrder, answers, m);
    assert found.Some? by {
      var s :| Tally(answers, s) == m;
      assert StyleOrder[Rank(s)] == s;
    }
    var i := FirstWithTally(StyleOrder, answers, m);
    assert Rank(found.value) == i;
    assert forall s :: Rank(s) < i ==> StyleOrder[Rank(s)] == s;
    found.GetOr(Visual)
  }

  /** The radio group's `onValueChange`. */
  function Select(q: Quiz, s: Style): (r: Quiz)
    ensures r.selected == Some(s)
    ensures r.current == q.current && r.answers == q.answers && r.result == q.result
  {
    q.(selected := Some(s))
  }

  /** `handleAnswer`. */
  function Answer(q: Quiz): (r: Quiz)
    ensures q.selected.None? ==> r == q
    ensures q.selected.Some? ==> r.answers == q.answers[q.current := q.selected.value]
    ensures q.selected.Some? && q.current < QuestionCount - 1 ==>
              r.current == q.current + 1 && r.selected.None? && r.result == q.result
    ensures q.selected.Some? && q.current >= QuestionCount - 1 ==>
              r.current == q.current && r.selected == q.selected && r.result == Some(TopStyle(r.answers))
  {
    match q.selected
    case None => q
    case Some(s) =>
      var answers := q.answers[q.current := s];
      if q.current < QuestionCount - 1 then
        Quiz(q.current + 1, answers, q.result, None)
      else
        q.(answers := answers, result := Some(TopStyle(answers)))
  }

  /** The Previous button. */
  function Previous(q: Quiz): (r: Quiz)
    ensures r.current == if q.current == 0 then 0 else q.current - 1
    ensures r.answers == q.answers && r.selected == q.selected && r.result == q.result
  {
    q.(current := if q.current - 1 < 0 then 0 else q.current - 1)
  }

  /** `resetQuiz`. */
  function ResetQuiz(q: Quiz): (r: Quiz)
    ensures r.current == 0 && r.answers == map[] && r.result.None? && r.selected.None?
  {
    Initial
  }

  /** A user action on the quiz page. */
  datatype Event = Choose(style: Style) | Next | Back | Retake

  function Step(q: Quiz, e: Event): Quiz {
    match e
    case Choose(s) => Select(q, s)
    case Next => Answer(q)
    case Back => Previous(q)
    case Retake => ResetQuiz(q)
  }

  function Run(q: Quiz, events: seq<Event>): Quiz
    decreases |events|
  {
    if events == [] then q else Run(Step(q, events[0]), events[1..])
  }

  /** Every event keeps the state valid. */
  lemma StepPreservesValid(q: Quiz, e: Event)
    requires Valid(q)
    ensures Valid(Step(q, e))
  {
  }

  /** Every state reachable from the initial one is valid. */
  lemma {:induction false} ReachableValid(q: Quiz, events: seq<Event>)
    requires Valid(q)
    ensures Valid(Run(q, events))
    decreases |events|
  {
    if events != [] {
      StepPreservesValid(q, events[0]);
      ReachableValid(Step(q, events[0]), events[1..]);
    }
  }

  /** The three tallies together count every recorded answer exactly once. */
  lemma TalliesPartitionAnswers(answers: map<nat, Style>)
    ensures Tally(answers, Visual) + Tally(answers, Auditory) + Tally(answers, Kinesthetic) == |answers|
  {
    var v, a, k := AnsweredWith(answers, Visual), AnsweredWith(answers, Auditory), AnsweredWith(answers, Kinesthetic);
    assert answers.Keys == v + a + k;
    assert v * a == {};
    assert (v + a) * k == {};
    assert |v + a| == |v| + |a|;
    assert |answers.Keys| == |v + a| + |k|;
  }

  /** A set of naturals below `n` has at most `n` elements. */
  lemma {:induction false} BoundedSetSize(s: set<nat>, n: nat)
    requires forall k :: k in s ==> k < n
    ensures |s| <= n
    decreases n
  {
    if n > 0 {
      var rest := s - {n - 1};
      BoundedSetSize(rest, n - 1);
    } else {
      assert s == {};
    }
  }

  /** In a reachable state the tallies add up to at most the number of questions. */
  lemma TalliesBounded(q: Quiz)
    requires Valid(q)
    ensures Tally(q.answers, Visual) + Tally(q.answers, Auditory) + Tally(q.answers, Kinesthetic) <= QuestionCount
  {
    TalliesPartitionAnswers(q.answers);
    BoundedSetSize(q.answers.Keys, QuestionCount);
  }

  /** Answering the same question again overwrites the earlier answer rather than adding one. */
  lemma ReanswerOverwrites(q: Quiz, s: Style, t: Style)
    requires q.current < QuestionCount - 1
    ensures Answer(Select(Previous(Answer(Select(q, s))), t)).answers == q.answers[q.current := t]
  {
  }

  /** With no recorded answers every tally is zero, so the tie-break yields Visual. */
  lemma NoAnswersGiveVisual()
    ensures TopStyle(map[]) == Visual
  {
  }
}

=== FILE: listings.dfy ===
/**
  What the Q&A and Community listing pages share: the declared listing query (approved
  rows only, newest first, optional limit), the de-duplicated author ids, the profile map
  built from the `profiles` rows returned for them, the author label, and the fetch step.
*/
module Listings {
  import opened Base
  import opened Schema

  /** A user-submitted row as a listing reads it; `body` holds the page-specific columns. */
  datatype Row<T> = Row(id: string, userId: UserId, status: string, createdAt: int, body: T)

  predicate IsApproved<T>(x: Row<T>) {
    x.status == ApprovedStatus
  }

  predicate AllApproved<T>(rows: seq<Row<T>>) {
    forall k :: 0 <= k < |rows| ==> IsApproved(rows[k])
  }

  /** `.eq("status", "approved")`. */
  function ApprovedOnly<T(==,!new)>(rows: seq<Row<T>>): (r: seq<Row<T>>)
    ensures forall k :: 0 <= k < |r| ==> IsApproved(r[k])
    ensures forall x :: multiset(r)[x] == if IsApproved(x) then multiset(rows)[x] else 0
    ensures forall x :: x in multiset(r) ==> IsApproved(x)
  {
    if rows == [] then []
    else
      var rest := ApprovedOnly(rows[1..]);
      assert rows == [rows[0]] + rows[1..];
      if IsApproved(rows[0]) then [rows[0]] + rest else rest
  }

  /** Ordered by `created_at`, descending. */
  predicate NewestFirst<T>(rows: seq<Row<T>>) {
    forall i, j :: 0 <= i < j < |rows| ==> rows[i].createdAt >= rows[j].createdAt
  }

  function InsertByDate<T(==,!new)>(x: Row<T>, rows: seq<Row<T>>): (r: seq<Row<T>>)
    requires NewestFirst(rows)
    ensures NewestFirst(r)
    ensures multiset(r) == multiset(rows) + multiset{x}
    ensures |r| == |rows| + 1
    ensures r[0] == x || (rows != [] && r[0] == rows[0])
  {
    if rows == [] || x.createdAt >= rows[0].createdAt then
      [x] + rows
    else
      var rest := InsertByDate(x, rows[1..]);
      assert rows == [rows[0]] + rows[1..];
      assert rest[0].createdAt <= rows[0].createdAt;
      var r := [rows[0]] + rest;
      assert forall k :: 0 < k < |r| ==> r[k] == rest[k - 1];
      assert multiset(r) == multiset([rows[0]]) + multiset(rest);
      assert multiset(rows) == multiset([rows[0]]) + multiset(rows[1..]);
      r
  }

  /**
    `.order("created_at", { ascending: false })`. The database leaves the order of equal
    timestamps open; this insertion sort is one admissible choice.
  */
  function SortNewestFirst<T(==,!new)>(rows: seq<Row<T>>): (r: seq<Row<T>>)
    ensures NewestFirst(r)
    ensures multiset(r) == multiset(rows)
    ensures |r| == |rows|
  {
    if rows == [] then []
    else
      assert rows == [rows[0]] + rows[1..];
      InsertByDate(rows[0], SortNewestFirst(rows[1..]))
  }

  /** `.limit(n)`, or no limit. */
  function Limit<T>(rows: seq<Row<T>>, limit: Option<nat>): (r: seq<Row<T>>)
    ensures limit.None? ==> r == rows
    ensures limit.Some? ==> r == rows[..Min(limit.value, |rows|)]
  {
    match limit
    case None => rows
    case Some(n) => rows[..Min(n, |rows|)]
  }

  /** In a newest-first sequence, every row after a prefix is no newer than any row in it. */
  lemma PrefixIsNewest<T>(s: seq<Row<T>>, m: nat)
    requires NewestFirst(s) && m <= |s|
    ensures multiset(s) - multiset(s[..m]) == multiset(s[m..])
    ensures forall x, k :: x in multiset(s[m..]) && 0 <= k < m ==> x.createdAt <= s[k].createdAt
  {
    assert s == s[..m] + s[m..];
    forall x, k | x in multiset(s[m..]) && 0 <= k < m
      ensures x.createdAt <= s[k].createdAt
    {
      var j :| 0 <= j < |s[m..]| && s[m..][j] == x;
      assert s[m + j] == x;
    }
  }

  /**
    The declared listing query: only approved rows, newest first, and with a limit the
    newest `limit` of them; nothing approved is lost when there is no limit.
  */
  function ListingQuery<T(==,!new)>(table: seq<Row<T>>, limit: Option<nat>): (r: seq<Row<T>>)
    ensures forall k :: 0 <= k < |r| ==> IsApproved(r[k])
    ensures NewestFirst(r)
    ensures multiset(r) <= multiset(ApprovedOnly(table))
    ensures limit.None? ==> multiset(r) == multiset(ApprovedOnly(table))
    ensures limit.Some? ==> |r| == Min(limit.value, |ApprovedOnly(table)|)
    ensures forall x, k :: x in multiset(ApprovedOnly(table)) - multiset(r) && 0 <= k < |r|
              ==> x.createdAt <= r[k].createdAt
  {
    var approved := ApprovedOnly(table);
    var sorted := SortNewestFirst(approved);
    var r := Limit(sorted, limit);
    TakeNewest(approved, sorted, r);
    r
  }

  /**
    Taking a prefix `r` of a newest-first arrangement of approved rows: the prefix is approved,
    ordered, drawn from those rows, and no row left out is newer than any row kept.
  */
  lemma TakeNewest<T>(approved: seq<Row<T>>, sorted: seq<Row<T>>, r: seq<Row<T>>)
    requires forall x :: x in multiset(approved) ==> IsApproved(x)
    requires multiset(sorted) == multiset(approved) && NewestFirst(sorted)
    requires |r| <= |sorted| && r == sorted[..|r|]
    ensures forall k :: 0 <= k < |r| ==> IsApproved(r[k])
    ensures NewestFirst(r)
    ensures multiset(r) <= multiset(approved)
    ensures |r| == |sorted| ==> multiset(r) == multiset(approved)
    ensures forall x, k :: x in multiset(approved) - multiset(r) && 0 <= k < |r|
              ==> x.createdAt <= r[k].createdAt
  {
    PrefixIsNewest(sorted, |r|);
    PrefixDrawnFrom(approved, sorted, r);
  }

  /** A prefix of a rearrangement of the approved rows holds approved rows only, and no more of them. */
  lemma PrefixDrawnFrom<T>(approved: seq<Row<T>>, sorted: seq<Row<T>>, r: seq<Row<T>>)
    requires forall x :: x in multiset(approved) ==> IsApproved(x)
    requires multiset(sorted) == multiset(approved)
    requires |r| <= |sorted| && r == sorted[..|r|]
    ensures forall k :: 0 <= k < |r| ==> IsApproved(r[k])
    ensures multiset(r) <= multiset(approved)
    ensures |r| == |sorted| ==> multiset(r) == multiset(approved)
  {
    assert sorted == r + sorted[|r|..];
    forall k | 0 <= k < |r| ensures IsApproved(r[k]) {
      assert r[k] in multiset(r);
    }
  }

  /** The `user_id` column of the listed rows. */
  function UserIds<T>(rows: seq<Row<T>>): (ids: seq<UserId>)
    ensures |ids| == |rows|
    ensures forall k :: 0 <= k < |rows| ==> ids[k] == rows[k].userId
  {
    if rows == [] then [] else [rows[0].userId] + UserIds(rows[1..])
  }

  /** Appending the elements of `xs` not already present, in first-occurrence order. */
  function DedupInto(acc: seq<UserId>, xs: seq<UserId>): (r: seq<UserId>)
    requires NoDuplicates(acc)
    ensures NoDuplicates(r)
    ensures forall x :: x in r <==> x in acc || x in xs
    ensures |acc| <= |r| && r[..|acc|] == acc
    decreases |xs|
  {
    if xs == [] then acc
    else if xs[0] in acc then DedupInto(acc, xs[1..])
    else
      var r := DedupInto(acc + [xs[0]], xs[1..]);
      assert r[..|acc|] == (acc + [xs[0]])[..|acc|];
      r
  }

  /** `[...new Set(data.map(x => x.user_id))]`. */
  function AuthorIds<T>(rows: seq<Row<T>>): (ids: seq<UserId>)
    ensures NoDuplicates(ids)
    ensures forall k :: 0 <= k < |rows| ==> rows[k].userId in ids
    ensures forall u :: u in ids ==> exists x :: x in rows && x.userId == u
  {
    var ids := DedupInto([], UserIds(rows));
    forall u | u in ids ensures exists x :: x in rows && x.userId == u {
      var k :| 0 <= k < |UserIds(rows)| && UserIds(rows)[k] == u;
      assert rows[k] in rows;
    }
    ids
  }

  /** A row returned by `.select("id, display_name, username")` on `profiles`. */
  datatype ProfileRow = ProfileRow(id: UserId, displayName: Option<string>, username: Option<string>)

  datatype Profile = Profile(displayName: Option<string>, username: Option<string>)

  function ProfileOf(p: ProfileRow): Profile {
    Profile(p.displayName, p.username)
  }

  /** `.in("id", ids)`: the profile rows whose id is one of `ids`. */
  function ProfilesIn(table: seq<ProfileRow>, ids: seq<UserId>): (r: seq<ProfileRow>)
    ensures forall k :: 0 <= k < |r| ==> r[k].id in ids && r[k] in table
    ensures forall x :: x in table && x.id in ids ==> x in r
  {
    if table == [] then []
    else if table[0].id in ids then [table[0]] + ProfilesIn(table[1..], ids)
    else ProfilesIn(table[1..], ids)
  }

  /** Position of the last row with the given id, or -1 when there is none. */
  function LastIndexOf(rows: seq<ProfileRow>, id: UserId): (i: int)
    ensures -1 <= i < |rows|
    ensures i >= 0 ==> rows[i].id == id
    ensures forall j :: i < j < |rows| ==> rows[j].id != id
  {
    if rows == [] then -1
    else if rows[|rows| - 1].id == id then |rows| - 1
    else LastIndexOf(rows[..|rows| - 1], id)
  }

  /**
    The `forEach` that fills `profilesMap`: exactly the returned ids are keys, and each
    maps to the profile of the last row with that id, since later rows overwrite earlier ones.
  */
  function ProfileMap(rows: seq<ProfileRow>): (m: map<UserId, Profile>)
    ensures forall id :: id in m <==> LastIndexOf(rows, id) >= 0
    ensures forall id :: id in m ==> m[id] == ProfileOf(rows[LastIndexOf(rows, id)])
  {
    if rows == [] then map[]
    else
      var init := rows[..|rows| - 1];
      var last := rows[|rows| - 1];
      var m := ProfileMap(init)[last.id := ProfileOf(last)];
      assert forall id :: id != last.id ==> LastIndexOf(rows, id) == LastIndexOf(init, id);
      assert forall k :: 0 <= k < |init| ==> init[k] == rows[k];
      m
  }

  /** Every row's id is a key of the profile map, and nothing else is. */
  lemma ProfileMapKeys(rows: seq<ProfileRow>)
    ensures forall k :: 0 <= k < |rows| ==> rows[k].id in ProfileMap(rows)
    ensures forall id :: id in ProfileMap(rows) ==> exists k :: 0 <= k < |rows| && rows[k].id == id
  {
  }

  /** A returned profile row of a listed author ends up in the profile map. */
  lemma ReturnedProfilesKept<T>(data: seq<Row<T>>, table: seq<ProfileRow>)
    ensures forall p :: p in table && (exists x :: x in data && x.userId == p.id) ==>
              p.id in ProfileMap(ProfilesIn(table, AuthorIds(data)))
  {
    var ids := AuthorIds(data);
    var rows := ProfilesIn(table, ids);
    ProfileMapKeys(rows);
    forall p | p in table && (exists x :: x in data && x.userId == p.id)
      ensures p.id in ProfileMap(rows)
    {
      var x :| x in data && x.userId == p.id;
      var k :| 0 <= k < |data| && data[k] == x;
      assert p.id in ids;
      var j :| 0 <= j < |rows| && rows[j] == p;
    }
  }

  /** Each entry of the profile map holds the display name and username of a returned row with that id. */
  lemma ProfileValuesFromTable(table: seq<ProfileRow>, ids: seq<UserId>)
    ensures forall id :: id in ProfileMap(ProfilesIn(table, ids)) ==>
              exists p :: p in table && p.id == id && ProfileMap(ProfilesIn(table, ids))[id] == ProfileOf(p)
  {
    var rows := ProfilesIn(table, ids);
    forall id | id in ProfileMap(rows)
      ensures exists p :: p in table && p.id == id && ProfileMap(rows)[id] == ProfileOf(p)
    {
      var k := LastIndexOf(rows, id);
      assert rows[k] in table;
    }
  }

  /** A JavaScript `string | null` that is truthy: present and non-empty. */
  predicate Truthy(s: Option<string>) {
    s.Some? && s.value != []
  }

  /** `profiles[id]?.display_name || profiles[id]?.username || "Anonymous"`. */
  function AuthorLabel(profiles: map<UserId, Profile>, id: UserId): (r: string)
    ensures r != []
    ensures id in profiles && Truthy(profiles[id].displayName) ==> r == profiles[id].displayName.value
    ensures (id in profiles && !Truthy(profiles[id].displayName) && Truthy(profiles[id].username))
              ==> r == profiles[id].username.value
    ensures (id !in profiles || (!Truthy(profiles[id].displayName) && !Truthy(profiles[id].username)))
              ==> r == "Anonymous"
  {
    if id in profiles && Truthy(profiles[id].displayName) then profiles[id].displayName.value
    else if id in profiles && Truthy(profiles[id].username) then profiles[id].username.value
    else "Anonymous"
  }

  /** The listing page's state: the rows shown and the profiles of their authors. */
  datatype Page<T> = Page(items: seq<Row<T>>, profiles: map<UserId, Profile>, loading: bool)

  function InitialPage<T>(): Page<T> {
    Page([], map[], true)
  }

  /**
    One run of the page's fetch: `listing` is the table the listing query ran over, or the
    error it returned; `profileTable` is the `profiles` table the follow-up query ran over,
    or `None` when that query returned no data. A failed listing keeps what was shown; an
    empty listing or a missing profile answer keeps the previous profiles.
  */
  function Fetch<T(==,!new)>(page: Page<T>, listing: Result<seq<Row<T>>, DbError>, limit: Option<nat>,
                        profileTable: Option<seq<ProfileRow>>): (r: Page<T>)
    ensures !r.loading
    ensures listing.Err? ==> r.items == page.items && r.profiles == page.profiles
    ensures listing.Ok? ==> r.items == ListingQuery(listing.value, limit)
    ensures listing.Ok? && r.items != [] && profileTable.Some? ==>
              forall id :: id in r.profiles ==> exists x :: x in r.items && x.userId == id
    ensures listing.Ok? && r.items != [] && profileTable.Some? ==>
              forall p :: p in profileTable.value && (exists x :: x in r.items && x.userId == p.id) ==> p.id in r.profiles
    ensures listing.Ok? && r.items != [] && profileTable.Some? ==>
              forall id :: id in r.profiles ==>
                exists p :: p in profileTable.value && p.id == id && r.profiles[id] == ProfileOf(p)
    ensures (listing.Ok? && r.items == []) || profileTable.None? ==> r.profiles == page.profiles
  {
    match listing
    case Err(_) => page.(loading := false)
    case Ok(table) =>
      var data := ListingQuery(table, limit);
      if data != [] && profileTable.Some? then
        var ids := AuthorIds(data);
        var rows := ProfilesIn(profileTable.value, ids);
        var m := ProfileMap(rows);
        forall id | id in m ensures exists x :: x in data && x.userId == id {
          var k := LastIndexOf(rows, id);
          assert rows[k].id in ids;
        }
        ReturnedProfilesKept(data, profileTable.value);
        ProfileValuesFromTable(profileTable.value, ids);
        Page(data, m, false)
      else
        Page(data, page.profiles, false)
  }

  /** Whatever the backend returns, a listing page never shows a row that is not approved. */
  lemma {:induction false} OnlyApprovedShown<T(!new)>(
    page: Page<T>, listings: seq<Result<seq<Row<T>>, DbError>>, limit: Option<nat>,
    profileTables: seq<Option<seq<ProfileRow>>>)
    requires AllApproved(page.items)
    requires |profileTables| == |listings|
    ensures AllApproved(FetchAll(page, listings, limit, profileTables).items)
    decreases |listings|
  {
    if listings != [] {
      var next := Fetch(page, listings[0], limit, profileTables[0]);
      OnlyApprovedShown(next, listings[1..], limit, profileTables[1..]);
    }
  }

  /** From the page's first render, any sequence of fetches shows approved rows only. */
  lemma InitialPageShowsApprovedOnly<T(!new)>(
    listings: seq<Result<seq<Row<T>>, DbError>>, limit: Option<nat>, profileTables: seq<Option<seq<ProfileRow>>>)
    requires |profileTables| == |listings|
    ensures AllApproved(FetchAll(InitialPage(), listings, limit, profileTables).items)
  {
    OnlyApprovedShown(InitialPage(), listings, limit, profileTables);
  }

  /** Successive fetches (the initial load, then the re-fetch after each like). */
  function FetchAll<T(==,!new)>(page: Page<T>, listings: seq<Result<seq<Row<T>>, DbError>>, limit: Option<nat>,
                           profileTables: seq<Option<seq<ProfileRow>>>): Page<T>
    requires |profileTables| == |listings|
    decreases |listings|
  {
    if listings == [] then page
    else FetchAll(Fetch(page, listings[0], limit, profileTables[0]), listings[1..], limit, profileTables[1..])
  }
}

=== FILE: qa.dfy ===
/**
  The Q&A listing page: its query (approved questions, newest first, at most 20), the
  relative date of a question, the content preview and the answer-count label.
*/
module QA {
  import opened Base
  import opened JsText
  import Listings

  /** The question columns the listing shows besides the shared ones. */
  datatype QuestionBody = QuestionBody(title: string, content: string, answersCount: nat, isSolved: bool)

  type Question = Listings.Row<QuestionBody>

  /** `.limit(20)`. */
  const QuestionLimit: nat := 20

  /** The Q&A listing query. */
  function ListQuestions(table: seq<Question>): (r: seq<Question>)
    ensures |r| <= QuestionLimit
    ensures forall k :: 0 <= k < |r| ==> Listings.IsApproved(r[k])
    ensures Listings.NewestFirst(r)
    ensures |r| == Min(QuestionLimit, |Listings.ApprovedOnly(table)|)
    ensures multiset(r) <= multiset(Listings.ApprovedOnly(table))
    ensures forall x, k :: x in multiset(Listings.ApprovedOnly(table)) - multiset(r) && 0 <= k < |r| ==>
              x.createdAt <= r[k].createdAt
  {
    Listings.ListingQuery(table, Some(QuestionLimit))
  }

  /** Milliseconds in a day. */
  const DayMs: nat := 1000 * 60 * 60 * 24

  /** What `formatDate` shows: a relative phrase, or the locale date of the timestamp. */
  datatype RelativeDate = Today | Yesterday | DaysAgo(days: int) | OnDate(createdMs: int)

  /**
    `Math.floor(diff / DayMs)`: for a positive divisor Dafny's division is floor division,
    also for a negative difference (a timestamp in the future).
  */
  function ElapsedDays(createdMs: int, nowMs: int): (days: int)
    ensures days * DayMs <= nowMs - createdMs < (days + 1) * DayMs
  {
    (nowMs - createdMs) / DayMs
  }

  /** `formatDate`, on integer milliseconds. */
  function FormatDate(createdMs: int, nowMs: int): (r: RelativeDate)
    ensures r == Today <==> 0 <= nowMs - createdMs < DayMs
    ensures r == Yesterday <==> DayMs <= nowMs - createdMs < 2 * DayMs
    ensures r.DaysAgo? <==> nowMs - createdMs < 0 || 2 * DayMs <= nowMs - createdMs < 7 * DayMs
    ensures r.DaysAgo? ==> r.days * DayMs <= nowMs - createdMs < (r.days + 1) * DayMs
    ensures r.OnDate? <==> nowMs - createdMs >= 7 * DayMs
    ensures r.OnDate? ==> r.createdMs == createdMs
  {
    var days := ElapsedDays(createdMs, nowMs);
    if days == 0 then Today
    else if days == 1 then Yesterday
    else if days < 7 then DaysAgo(days)
    else OnDate(createdMs)
  }

  /** The text shown; `localeDate` stands for `toLocaleDateString`, which depends on the browser. */
  function DateText(d: RelativeDate, localeDate: int -> string): (r: string)
    ensures d == Today ==> r == "today"
    ensures d == Yesterday ==> r == "yesterday"
    ensures d.DaysAgo? ==> r == IntToDecimal(d.days) + " days ago"
    ensures d.OnDate? ==> r == localeDate(d.createdMs)
  {
    match d
    case Today => "today"
    case Yesterday => "yesterday"
    case DaysAgo(n) => IntToDecimal(n) + " days ago"
    case OnDate(ms) => localeDate(ms)
  }

  /** A question posted two and a half days in the future reads "-3 days ago". */
  lemma FutureTimestampReadsNegative(createdMs: int)
    ensures FormatDate(createdMs + 5 * DayMs / 2, createdMs) == DaysAgo(-3)
  {
  }

  /** Characters of the preview before the ellipsis. */
  const PreviewLength: nat := 150

  /** `content.substring(0, 150) + "..."`. */
  function Preview(content: string): (r: string)
    ensures |r| == Min(PreviewLength, |content|) + 3
    ensures r[..|r| - 3] == content[..Min(PreviewLength, |content|)]
    ensures r[|r| - 3..] == "..."
  {
    content[..Min(PreviewLength, |content|)] + "..."
  }

  /** Short content is shown whole, and the ellipsis is still appended. */
  lemma ShortPreviewKeepsContent(content: string)
    requires |content| <= PreviewLength
    ensures Preview(content) == content + "..."
  {
  }

  /** `answers_count === 1 ? "answer" : "answers"`. */
  function AnswerNoun(count: nat): (r: string)
    ensures count == 1 <==> r == "answer"
    ensures count != 1 <==> r == "answers"
  {
    if count == 1 then "answer" else "answers"
  }
}

=== FILE: schema.dfy ===
/** The entity types the pages share, as the generated database types declare them. */
module Schema {

  /** Identity of a signed-in user (the auth user's `id`). */
  type UserId = string

  /** The `app_role` enum of the database. */
  datatype Role = Admin | Moderator | Parent | Premium | Free

  /** Moderation status values; the column itself is free text. */
  const PendingStatus: string := "pending"
  const ApprovedStatus: string := "approved"

  /** The error object a backend call returns: a Postgres error code and a message. */
  datatype DbError = DbError(code: string, message: string)
}

=== FILE: share_project.dfy ===
/**
  The project-share form: the duplicate-free tag list, the ordered submit checks, and the
  record the form inserts into `community_projects`.
*/
module ShareProject {
  import opened Base
  import opened Schema
  import opened JsText

  /** The form's controlled inputs. */
  datatype Form = Form(
    title: string,
    description: string,
    projectUrl: string,
    youtubeUrl: string,
    tags: seq<string>,
    currentTag: string)

  const EmptyForm: Form := Form("", "", "", "", [], "")

  /** What the tag list keeps: distinct, trimmed, non-empty tags. */
  predicate TagsWellFormed(tags: seq<string>) {
    && NoDuplicates(tags)
    && forall t :: t in tags ==> t != [] && Trim(t) == t
  }

  /** `addTag`: append the trimmed input when it is non-blank and new, and only then clear the input. */
  function AddTag(f: Form): (r: Form)
    ensures var t := Trim(f.currentTag);
            if t != [] && t !in f.tags then r.tags == f.tags + [t] && r.currentTag == []
            else r.tags == f.tags && r.currentTag == f.currentTag
    ensures r.title == f.title && r.description == f.description
    ensures r.projectUrl == f.projectUrl && r.youtubeUrl == f.youtubeUrl
    ensures TagsWellFormed(f.tags) ==> TagsWellFormed(r.tags)
  {
    var t := Trim(f.currentTag);
    if t != [] && t !in f.tags then
      TrimIdempotent(f.currentTag);
      f.(tags := f.tags + [t], currentTag := [])
    else f
  }

  /** `tags.filter(tag => tag !== t)`. */
  function Without(tags: seq<string>, t: string): (r: seq<string>)
    ensures t !in r
    ensures forall x :: x in r <==> x in tags && x != t
    ensures t !in tags ==> r == tags
  {
    if tags == [] then []
    else if tags[0] == t then Without(tags[1..], t)
    else [tags[0]] + Without(tags[1..], t)
  }

  /** `removeTag`: only the tag list changes. */
  function RemoveTag(f: Form, t: string): (r: Form)
    ensures r.tags == Without(f.tags, t)
    ensures r == f.(tags := r.tags)
  {
    f.(tags := Without(f.tags, t))
  }

  /** In a duplicate-free list, removing a tag is cutting it out at its position: the others keep their order. */
  lemma {:induction false} RemoveCutsOut(tags: seq<string>, i: nat)
    requires i < |tags| && NoDuplicates(tags)
    ensures Without(tags, tags[i]) == tags[..i] + tags[i + 1..]
    decreases i
  {
    if i == 0 {
      assert tags[0] !in tags[1..];
      assert tags[..0] + tags[1..] == tags[1..];
    } else {
      var rest := tags[1..];
      assert rest[i - 1] == tags[i];
      assert NoDuplicates(rest);
      RemoveCutsOut(rest, i - 1);
      assert tags[..i] == [tags[0]] + rest[..i - 1];
      assert tags[i + 1..] == rest[i..];
    }
  }

  /** Removing from a duplicate-free list leaves it duplicate-free. */
  lemma {:induction false} WithoutNoDuplicates(tags: seq<string>, t: string)
    requires NoDuplicates(tags)
    ensures NoDuplicates(Without(tags, t))
    decreases |tags|
  {
    if tags != [] {
      var rest := tags[1..];
      assert NoDuplicates(rest) by {
        forall i, j | 0 <= i < j < |rest| ensures rest[i] != rest[j] {
          assert rest[i] == tags[i + 1] && rest[j] == tags[j + 1];
        }
      }
      WithoutNoDuplicates(rest, t);
      if tags[0] != t {
        var w := Without(rest, t);
        assert tags[0] !in w;
        var r := [tags[0]] + w;
        forall i, j | 0 <= i < j < |r| ensures r[i] != r[j] {
          assert r[j] == w[j - 1];
          if i > 0 { assert r[i] == w[i - 1]; }
        }
      }
    }
  }

  /** Removing keeps the tag-list invariant. */
  lemma RemovePreservesWellFormed(f: Form, t: string)
    requires TagsWellFormed(f.tags)
    ensures TagsWellFormed(RemoveTag(f, t).tags)
  {
    WithoutNoDuplicates(f.tags, t);
  }

  /** Typing the same text and adding it a second time leaves the tag list as after the first add. */
  lemma AddTagIdempotent(f: Form, text: string)
    ensures AddTag(AddTag(f.(currentTag := text)).(currentTag := text)).tags == AddTag(f.(currentTag := text)).tags
  {
  }

  /** Why a submission was refused before reaching the database, in the order the checks run. */
  datatype SubmitError = NotSignedIn | MissingRequiredField | MissingLink

  /** The row inserted into `community_projects`. */
  datatype ProjectInsert = ProjectInsert(
    userId: UserId,
    title: string,
    description: string,
    projectUrl: Option<string>,
    youtubeUrl: Option<string>,
    tags: seq<string>,
    status: string)

  /** `s.trim() || null`. */
  function TrimmedOrNull(s: string): (r: Option<string>)
    ensures r.None? <==> IsBlank(s)
    ensures r.Some? ==> r.value == Trim(s) && r.value != []
  {
    var t := Trim(s);
    if t == [] then None else Some(t)
  }

  /** The validation of `handleSubmit` followed by the record it would insert. */
  function Submit(user: Option<UserId>, f: Form): (r: Result<ProjectInsert, SubmitError>)
    ensures user.None? <==> r == Err(NotSignedIn)
    ensures r == Err(MissingRequiredField) <==>
              user.Some? && (Trim(f.title) == [] || Trim(f.description) == [])
    ensures r == Err(MissingLink) <==>
              user.Some? && Trim(f.title) != [] && Trim(f.description) != []
              && f.projectUrl == [] && f.youtubeUrl == []
    ensures r.Ok? ==> && r.value.userId == user.value
                      && r.value.title == Trim(f.title) && r.value.title != []
                      && r.value.description == Trim(f.description) && r.value.description != []
                      && r.value.projectUrl == TrimmedOrNull(f.projectUrl)
                      && r.value.youtubeUrl == TrimmedOrNull(f.youtubeUrl)
                      && r.value.tags == f.tags
                      && r.value.status == PendingStatus
  {
    if user.None? then Err(NotSignedIn)
    else if Trim(f.title) == [] || Trim(f.description) == [] then Err(MissingRequiredField)
    else if f.projectUrl == [] && f.youtubeUrl == [] then Err(MissingLink)
    else Ok(ProjectInsert(
      user.value, Trim(f.title), Trim(f.description),
      TrimmedOrNull(f.projectUrl), TrimmedOrNull(f.youtubeUrl), f.tags, PendingStatus))
  }

  /** A whitespace-only link passes the link check and is then stored as null. */
  lemma BlankLinkAccepted(user: UserId, f: Form)
    requires Trim(f.title) != [] && Trim(f.description) != []
    requires f.projectUrl != [] && IsBlank(f.projectUrl) && f.youtubeUrl == []
    ensures Submit(Some(user), f).Ok?
    ensures Submit(Some(user), f).value.projectUrl.None? && Submit(Some(user), f).value.youtubeUrl.None?
  {
  }

  /** The form as first rendered holds well-formed tags, and submitting it untouched is refused for the missing fields. */
  lemma EmptyFormRefused(user: UserId)
    ensures TagsWellFormed(EmptyForm.tags)
    ensures Submit(Some(user), EmptyForm) == Err(MissingRequiredField)
  {
  }

  /** The toast after the insert: success, the error's message, or the fallback text. */
  datatype SubmitFeedback = Submitted | Failed(message: string)

  function InsertFeedback(error: Option<DbError>): (r: SubmitFeedback)
    ensures error.None? <==> r.Submitted?
    ensures r.Failed? ==> r.message != []
    ensures error.Some? && error.value.message != [] ==> r == Failed(error.value.message)
    ensures error.Some? && error.value.message == [] ==> r == Failed("Failed to submit project")
  {
    match error
    case None => Submitted
    case Some(e) => Failed(if e.message != [] then e.message else "Failed to submit project")
  }
}

=== FILE: tutorial_detail.dfy ===
/**
  The tutorial page: role resolution and the premium predicate, the bounded step cursor,
  the text shown for the current step, the difficulty stars and the editor's starter document.
*/
module TutorialDetail {
  import opened Base
  import opened Schema
  import opened JsText
  import TutorialSteps

  /** A row of `user_roles`. */
  datatype RoleRow = RoleRow(userId: UserId, role: Role)

  /** The role a visitor has before (and unless) a role row is found. */
  const DefaultRole: Role := Free

  /** `isPremiumUser`. */
  predicate IsPremium(role: Role) {
    role == Premium || role == Admin
  }

  /** The premium predicate holds for exactly the premium and admin roles. */
  lemma PremiumRoles()
    ensures IsPremium(Premium) && IsPremium(Admin)
    ensures !IsPremium(Free) && !IsPremium(Moderator) && !IsPremium(Parent)
  {
  }

  /** The rows of `user_roles` with the given `user_id` (the `.eq('user_id', …)` filter). */
  function RolesOf(rows: seq<RoleRow>, user: UserId): (r: seq<RoleRow>)
    ensures forall k :: 0 <= k < |r| ==> r[k].userId == user && r[k] in rows
    ensures forall x :: x in rows && x.userId == user ==> x in r
    ensures forall x :: multiset(r)[x] == if x.userId == user then multiset(rows)[x] else 0
  {
    if rows == [] then []
    else
      var rest := RolesOf(rows[1..], user);
      assert rows == [rows[0]] + rows[1..];
      assert multiset(rows) == multiset{rows[0]} + multiset(rows[1..]);
      if rows[0].userId == user then [rows[0]] + rest else rest
  }

  /**
    `checkUserRole`: with a signed-in user, `.single()` yields data only when exactly one
    role row matches, and only then is the role replaced; otherwise it stays as it was.
  */
  function ResolveRole(current: Role, user: Option<UserId>, rows: seq<RoleRow>): (r: Role)
    ensures user.None? ==> r == current
    ensures user.Some? && |RolesOf(rows, user.value)| == 1 ==> r == RolesOf(rows, user.value)[0].role
    ensures user.Some? && |RolesOf(rows, user.value)| != 1 ==> r == current
    ensures r == current || exists x :: x in rows && x.userId == user.value && r == x.role
  {
    match user
    case None => current
    case Some(id) =>
      var matching := RolesOf(rows, id);
      if |matching| == 1 then matching[0].role else current
  }

  /** A user holding two role rows is not upgraded: the lookup fails and the role stays the default. */
  lemma TwoRoleRowsStayFree(user: UserId, a: Role, b: Role)
    ensures ResolveRole(DefaultRole, Some(user), [RoleRow(user, a), RoleRow(user, b)]) == Free
  {
  }

  /** `getDifficultyStars`: `difficulty` copies of the star glyph. */
  function DifficultyStars(difficulty: nat): (r: string)
    ensures |r| == difficulty
    ensures forall i :: 0 <= i < |r| ==> r[i] == '\U{2B50}'
  {
    RepeatChar('\U{2B50}', difficulty)
  }

  /** The document the code editor receives when the tutorial has no starter code. */
  const DefaultStarter: string :=
    "<!DOCTYPE html><html><head><meta charset=\"utf-8\"></head><body><h1>Welcome!</h1><p>Edit code and click Run.</p></body></html>"

  /** `tutorial.starter_code || default`. */
  function EditorStarter(starterCode: string): (r: string)
    ensures r != []
    ensures starterCode != [] ==> r == starterCode
    ensures starterCode == [] ==> r == DefaultStarter
  {
    if starterCode != [] then starterCode else DefaultStarter
  }

  /** The step cursor of the instructions panel, over the steps parsed from the free content. */
  datatype Viewer = Viewer(steps: seq<string>, current: nat)

  /** The cursor points at a step, or at 0 when there are none. */
  predicate CursorInRange(v: Viewer) {
    v.current == 0 || v.current < |v.steps|
  }

  /** `handleNextStep`. */
  function NextStep(v: Viewer): (r: Viewer)
    ensures r.steps == v.steps
    ensures v.current + 1 < |v.steps| ==> r.current == v.current + 1
    ensures v.current + 1 >= |v.steps| ==> r.current == v.current
    ensures CursorInRange(v) ==> CursorInRange(r)
  {
    if v.current < |v.steps| - 1 then v.(current := v.current + 1) else v
  }

  /** `handlePreviousStep`. */
  function PreviousStep(v: Viewer): (r: Viewer)
    ensures r.steps == v.steps
    ensures v.current > 0 ==> r.current == v.current - 1
    ensures v.current == 0 ==> r.current == 0
    ensures CursorInRange(v) ==> CursorInRange(r)
  {
    if v.current > 0 then v.(current := v.current - 1) else v
  }

  /** A freshly loaded tutorial: its content split into steps, the cursor on the first. */
  function Load(freeContent: string): (v: Viewer)
    ensures v.current == 0 && CursorInRange(v)
    ensures forall k :: 0 <= k < |v.steps| ==> !IsBlank(v.steps[k])
    ensures v.steps == TutorialSteps.Steps(freeContent)
  {
    Viewer(TutorialSteps.Steps(freeContent), 0)
  }

  /** Content with any non-space character loads at least one step, so the viewer shows a step. */
  lemma NonBlankContentLoadsAStep(freeContent: string)
    requires !IsBlank(freeContent)
    ensures |Load(freeContent).steps| >= 1
  {
    var pieces := TutorialSteps.Split(freeContent);
    var steps := TutorialSteps.Steps(freeContent);
    if steps == [] {
      forall k | 0 <= k < |pieces| ensures IsBlank(pieces[k]) {
        assert multiset(steps)[pieces[k]] == 0;
      }
      TutorialSteps.ConcatOfBlanks(pieces);
      assert false;
    }
  }

  /** `steps[currentStep] || free_content`: the step when it exists and is non-empty, else the whole content. */
  function DisplayedText(v: Viewer, freeContent: string): (r: string)
    ensures v.current < |v.steps| && v.steps[v.current] != [] ==> r == v.steps[v.current]
    ensures !(v.current < |v.steps| && v.steps[v.current] != []) ==> r == freeContent
  {
    if v.current < |v.steps| && v.steps[v.current] != [] then v.steps[v.current] else freeContent
  }

  /** A navigation button on the instructions panel. */
  datatype Nav = Forward | Backward

  function Navigate(v: Viewer, moves: seq<Nav>): Viewer
    decreases |moves|
  {
    if moves == [] then v
    else Navigate(if moves[0] == Forward then NextStep(v) else PreviousStep(v), moves[1..])
  }

  /**
    After any sequence of Next and Previous presses on a loaded tutorial the cursor stays
    within the steps, the steps are unchanged, and a non-empty step list is shown step by step.
  */
  lemma {:induction false} NavigationStaysInRange(v: Viewer, moves: seq<Nav>)
    requires CursorInRange(v)
    ensures CursorInRange(Navigate(v, moves))
    ensures Navigate(v, moves).steps == v.steps
    decreases |moves|
  {
    if moves != [] {
      var w := if moves[0] == Forward then NextStep(v) else PreviousStep(v);
      NavigationStaysInRange(w, moves[1..]);
    }
  }

  /**
    When every step is non-blank, as on a loaded tutorial, and there is at least one,
    the text shown after any navigation is the current step and never the fallback.
  */
  lemma NavigationShowsStep(v: Viewer, freeContent: string, moves: seq<Nav>)
    requires CursorInRange(v) && |v.steps| > 0
    requires forall k :: 0 <= k < |v.steps| ==> !IsBlank(v.steps[k])
    ensures var w := Navigate(v, moves);
            w.current < |w.steps| && DisplayedText(w, freeContent) == w.steps[w.current]
  {
    NavigationStaysInRange(v, moves);
    var w := Navigate(v, moves);
    assert !IsBlank(w.steps[w.current]);
  }
}

=== FILE: tutorial_steps.dfy ===
/**
  Splitting a tutorial's free content into steps: `split` on the zero-width pattern
  `(?=^##\s+Step\s+\d+:|^Step\s+\d+:)` in multiline mode, then dropping blank pieces.
*/
module TutorialSteps {
  import opened JsText

  /** Number of leading `\d` characters. */
  function LeadingDigits(s: string): (n: nat)
    ensures n <= |s|
    ensures forall i :: 0 <= i < n ==> IsDigit(s[i])
    ensures n < |s| ==> !IsDigit(s[n])
  {
    if |s| > 0 && IsDigit(s[0]) then 1 + LeadingDigits(s[1..]) else 0
  }

  /**
    `Step\s+\d+:` matches at the start of `t`. The runs of `\s` and `\d` are maximal in
    any match, because neither `S` nor `:` belongs to the class before it.
  */
  predicate StepHeader(t: string) {
    && |t| >= 4 && t[..4] == "Step"
    && var u := t[4..];
       var n := LeadingSpaces(u);
       && n > 0
       && var v := u[n..];
          var d := LeadingDigits(v);
          d > 0 && d < |v| && v[d] == ':'
  }

  /** Either alternative of the lookahead matches at the start of `t`. */
  predicate HeaderAt(t: string) {
    || StepHeader(t)
    || (&& |t| >= 2 && t[0] == '#' && t[1] == '#'
        && var n := LeadingSpaces(t[2..]);
           n > 0 && StepHeader(t[2 + n..]))
  }

  /** `^` in multiline mode: the start of the input or just after a line terminator. */
  predicate LineStart(s: string, i: nat)
    requires i <= |s|
  {
    i == 0 || IsLineTerminator(s[i - 1])
  }

  /**
    `split` cuts at every position strictly inside the string where the lookahead matches;
    a zero-width match at the start of the current piece never cuts.
  */
  predicate IsCut(s: string, i: nat) {
    0 < i < |s| && LineStart(s, i) && HeaderAt(s[i..])
  }

  /** A maximal run of whitespace is counted in full. */
  lemma {:induction false} LeadingSpacesOfRun(w: string, x: string)
    requires forall i :: 0 <= i < |w| ==> IsSpace(w[i])
    requires x == [] || !IsSpace(x[0])
    ensures LeadingSpaces(w + x) == |w|
  {
    if w != [] {
      assert (w + x)[1..] == w[1..] + x;
      LeadingSpacesOfRun(w[1..], x);
    } else {
      assert w + x == x;
    }
  }

  /** A maximal run of digits is counted in full. */
  lemma {:induction false} LeadingDigitsOfRun(d: string, x: string)
    requires forall i :: 0 <= i < |d| ==> IsDigit(d[i])
    requires x == [] || !IsDigit(x[0])
    ensures LeadingDigits(d + x) == |d|
  {
    if d != [] {
      assert (d + x)[1..] == d[1..] + x;
      LeadingDigitsOfRun(d[1..], x);
    } else {
      assert d + x == x;
    }
  }

  /**
    `Step`, a non-empty whitespace run, a non-empty digit run and a colon make a header,
    whatever follows.
  */
  lemma StepHeaderIntro(w: string, d: string, rest: string)
    requires w != [] && forall i :: 0 <= i < |w| ==> IsSpace(w[i])
    requires d != [] && forall i :: 0 <= i < |d| ==> IsDigit(d[i])
    ensures StepHeader("Step" + w + d + ":" + rest)
  {
    var t := "Step" + w + d + ":" + rest;
    var u := t[4..];
    assert u == w + (d + ":" + rest);
    LeadingSpacesOfRun(w, d + ":" + rest);
    var v := u[|w|..];
    assert v == d + (":" + rest);
    LeadingDigitsOfRun(d, ":" + rest);
  }

  /** The same header after `##` and a non-empty whitespace run. */
  lemma HashedHeaderIntro(h: string, w: string, d: string, rest: string)
    requires h != [] && forall i :: 0 <= i < |h| ==> IsSpace(h[i])
    requires w != [] && forall i :: 0 <= i < |w| ==> IsSpace(w[i])
    requires d != [] && forall i :: 0 <= i < |d| ==> IsDigit(d[i])
    ensures HeaderAt("##" + h + "Step" + w + d + ":" + rest)
  {
    var header := "Step" + w + d + ":" + rest;
    StepHeaderIntro(w, d, rest);
    var t := "##" + h + header;
    assert t == "##" + h + "Step" + w + d + ":" + rest;
    assert t[2..] == h + header;
    LeadingSpacesOfRun(h, header);
    assert t[2 + |h|..] == header;
  }

  /** `Step` must be followed directly by whitespace, so `Step1:` is no header. */
  lemma NoSpaceNoHeader(t: string)
    requires |t| > 4 && t[..4] == "Step" && !IsSpace(t[4])
    ensures !StepHeader(t)
  {
  }

  /** A header right after a line terminator cuts the content there. */
  lemma CutAfterLineBreak(before: string, header: string)
    requires before != [] && IsLineTerminator(before[|before| - 1])
    requires header != [] && HeaderAt(header)
    ensures IsCut(before + header, |before|)
  {
  }

  /** A header preceded by anything but a line terminator does not cut. */
  lemma NoCutMidLine(s: string, i: nat)
    requires 0 < i < |s| && !IsLineTerminator(s[i - 1])
    ensures !IsCut(s, i)
  {
  }

  /** A typical plain step header. */
  lemma PlainHeaderExample()
    ensures HeaderAt("Step 1: Plan")
  {
    StepHeaderIntro(" ", "1", " Plan");
    assert "Step" + " " + "1" + ":" + " Plan" == "Step 1: Plan";
  }

  function Concat(pieces: seq<string>): string {
    if pieces == [] then [] else pieces[0] + Concat(pieces[1..])
  }

  /** Joining blank pieces gives blank text. */
  lemma {:induction false} ConcatOfBlanks(pieces: seq<string>)
    requires forall k :: 0 <= k < |pieces| ==> IsBlank(pieces[k])
    ensures IsBlank(Concat(pieces))
  {
    if pieces != [] {
      ConcatOfBlanks(pieces[1..]);
      var c := Concat(pieces);
      assert c == pieces[0] + Concat(pieces[1..]);
      forall i | 0 <= i < |c| ensures IsSpace(c[i]) {
        if i >= |pieces[0]| {
          assert c[i] == Concat(pieces[1..])[i - |pieces[0]|];
        }
      }
    }
  }

  /** Where each piece starts, when the first one starts at `base`. */
  function StartOffsets(pieces: seq<string>, base: nat): (offsets: seq<nat>)
    ensures |offsets| == |pieces|
    ensures pieces != [] ==> offsets[0] == base
  {
    if pieces == [] then [] else [base] + StartOffsets(pieces[1..], base + |pieces[0]|)
  }

  /** The second piece starts where the first one ends. */
  lemma SecondPieceOffset(pieces: seq<string>)
    ensures |pieces| > 1 ==> |pieces[0]| in StartOffsets(pieces, 0)
  {
  }

  /** `IsCut` at every position, computed once. */
  function CutMask(s: string): (mask: seq<bool>)
    ensures |mask| == |s|
    ensures forall i :: 0 <= i < |s| ==> mask[i] == IsCut(s, i)
  {
    seq(|s|, i requires 0 <= i < |s| => IsCut(s, i))
  }

  /**
    The rest of the split once the current piece began at `p` and positions below `q`
    were scanned; `mask` marks the cut positions.
  */
  function SplitFrom(s: string, mask: seq<bool>, p: nat, q: nat): (pieces: seq<string>)
    requires |mask| == |s|
    requires p < q <= |s|
    requires forall i :: p < i < q ==> !mask[i]
    ensures Concat(pieces) == s[p..]
    ensures forall k :: 0 <= k < |pieces| ==> pieces[k] != []
    ensures forall i :: i in StartOffsets(pieces, p) <==> i == p || (q <= i < |s| && mask[i])
    decreases |s| - q
  {
    if q == |s| then
      assert Concat([s[p..]]) == s[p..] + Concat([]);
      [s[p..]]
    else if mask[q] then
      var rest := SplitFrom(s, mask, q, q + 1);
      var r := [s[p..q]] + rest;
      assert r[1..] == rest;
      assert s[p..] == s[p..q] + s[q..];
      r
    else
      SplitFrom(s, mask, p, q + 1)
  }

  /** `free_content.split(/(?=^##\s+Step\s+\d+:|^Step\s+\d+:)/m)`. */
  function Split(s: string): (pieces: seq<string>)
    ensures |pieces| >= 1
    ensures Concat(pieces) == s
    ensures s == [] ==> pieces == [[]]
    ensures s != [] ==> forall k :: 0 <= k < |pieces| ==> pieces[k] != []
    ensures forall i :: i in StartOffsets(pieces, 0) <==> i == 0 || IsCut(s, i)
  {
    if s == [] then
      assert Concat([[]]) == [];
      [[]]
    else SplitFrom(s, CutMask(s), 0, 1)
  }

  /** `a` is `b` with some elements left out, the rest in their original order. */
  predicate SubsequenceOf<T(==)>(a: seq<T>, b: seq<T>)
    decreases |b|
  {
    if a == [] then true
    else if b == [] then false
    else if a[0] == b[0] then SubsequenceOf(a[1..], b[1..])
    else SubsequenceOf(a, b[1..])
  }

  /** `pieces.filter(step => step.trim().length > 0)`. */
  function KeepNonBlank(pieces: seq<string>): (r: seq<string>)
    ensures forall k :: 0 <= k < |r| ==> !IsBlank(r[k])
    ensures forall x :: multiset(r)[x] == if IsBlank(x) then 0 else multiset(pieces)[x]
    ensures SubsequenceOf(r, pieces)
  {
    if pieces == [] then []
    else
      var rest := KeepNonBlank(pieces[1..]);
      assert pieces == [pieces[0]] + pieces[1..];
      if Trim(pieces[0]) == [] then
        SubsequenceOfSkip(rest, pieces);
        rest
      else
        var r := [pieces[0]] + rest;
        assert r[1..] == rest;
        r
  }

  /** Dropping the head of the longer sequence keeps a subsequence relation. */
  lemma {:induction false} SubsequenceOfSkip<T>(a: seq<T>, b: seq<T>)
    requires b != [] && SubsequenceOf(a, b[1..])
    ensures SubsequenceOf(a, b)
    decreases |b|, |a|
  {
    if a != [] && a[0] == b[0] {
      SubsequenceOfDropHead(a, b[1..]);
    }
  }

  /** A subsequence stays one after losing its head. */
  lemma {:induction false} SubsequenceOfDropHead<T>(a: seq<T>, b: seq<T>)
    requires a != [] && SubsequenceOf(a, b)
    ensures SubsequenceOf(a[1..], b)
    decreases |b|, |a|
  {
    if a[0] == b[0] {
      if a[1..] != [] {
        SubsequenceOfSkip(a[1..], b);
      }
    } else {
      SubsequenceOfDropHead(a, b[1..]);
      if a[1..] != [] {
        SubsequenceOfSkip(a[1..], b);
      }
    }
  }

  /** The steps shown by the viewer. */
  function Steps(freeContent: string): (steps: seq<string>)
    ensures forall k :: 0 <= k < |steps| ==> !IsBlank(steps[k])
    ensures SubsequenceOf(steps, Split(freeContent))
    ensures forall x :: multiset(steps)[x] == if IsBlank(x) then 0 else multiset(Split(freeContent))[x]
  {
    KeepNonBlank(Split(freeContent))
  }

  /** Content with no step header is a single step, or none when it is blank. */
  lemma NoHeaderOneStep(s: string)
    requires forall i :: !IsCut(s, i)
    ensures Steps(s) == if IsBlank(s) then [] else [s]
  {
    var ps := Split(s);
    SecondPieceOffset(ps);
    assert |ps| == 1;
    assert ps == [ps[0]];
    assert Concat(ps) == ps[0] + Concat(ps[1..]);
    assert ps[1..] == [];
    assert Concat(ps[1..]) == [];
    assert ps[0] == s;
    assert ps == [s];
    assert KeepNonBlank(ps[1..]) == [];
    assert [s] + [] == [s];
  }
}
